=== FILE: README.md ===
# ofxPreset core in Dafny

A functional model of two parts of the ofxPreset openFrameworks addon:

* **The GUI label scopes and the window / tree brackets** (`ofxPreset::Gui`).
  Every widget needs a label unique within the innermost open window or tree
  node. `GetUniqueName` pads a candidate with spaces until it is new to the
  innermost scope, and records it there. `BeginWindow`/`EndWindow` and
  `BeginTree`/`EndTree` push and pop scopes, keep the `windowBlock` flag
  (windows do not nest) and the clamped `treeLevel` counter, and `EndWindow`
  folds the window's rectangle into `totalBounds` and the mouse test into
  `mouseOverGui`. `AddGroup` walks a parameter tree: the outermost group gets
  a window, every nested group a tree node; a collapsed window is ended at
  once and a collapsed node only costs its label, in both cases without
  visiting the group's entries; and each parameter of a supported type gets
  one widget.
* **The JSON serializer** (`ofxPreset::Serializer`). A parameter is written as
  `json[name] = toString()` when it is serializable; a group writes its
  entries under `json[name]`, or straight into the current object when its
  name is empty; reading back skips missing keys and empty strings. The
  vector overloads append one string per value and read back one value per
  stored element.

The model is a set of pure functions over immutable values. The GUI state is
the label stack as `seq<seq<string>>` (innermost scope last) plus the
`Settings` record. Whatever the toolkit decides (is the window expanded, was
its close button pressed, is the tree node open, did the user edit a value,
where is the window and the mouse) is passed in as a parameter, so every
property holds for every toolkit answer. The JSON document is a datatype
mirroring nlohmann::json; the `type_error` exceptions nlohmann throws on a
value of the wrong kind become a `TypeError` result. The host's
`toString`/`fromString` are function parameters, with the round-trip
assumption stated where it is needed.

Files: `labels.dfy` (the padding rule), `gui.dfy` (state, brackets, label
requests), `params.dfy` (the parameter tree), `traversal.dfy` (AddGroup),
`json.dfy` (the document), `ordering.dfy` (key order of object iteration),
`serializer.dfy` (Serialize / Deserialize), `roundtrip.dfy` (the round trip).

Main results:

* The label for a candidate is the candidate followed by the least number of
  spaces that makes it new to the innermost scope; n requests of the same
  candidate in a fresh scope give `c`, `c `, `c  `, …; a label already used
  outside comes back unpadded inside a freshly opened node.
* A window bracket restores the label stack; a tree bracket restores it up
  to the node's own label, and restores the tree level. `AddGroup` leaves the
  stack depth, `windowBlock` and `treeLevel` as it found them, never visits a
  collapsed group's entries, visits the supported parameters in tree order
  (all of them when everything is expanded), and skips an unsupported one
  without disturbing the rest.
* Serialization only touches the keys of the entries it writes; a
  serializable, well-keyed tree serialized into a document lacking its keys
  comes back exactly when deserialized into any tree of the same shape; the
  vector overloads round-trip, and serializing twice stores the values twice.

## Model

| member | source | states |
|---|---|---|
| Labels.FirstFree | src/ofxPreset/Gui.inl:24-27 | the padding loop stops within as many steps as the scope has labels, at a padding not in the scope, with every shorter padding taken |
| Labels.Unique | src/ofxPreset/Gui.inl:23-27 | the chosen label is the candidate plus spaces, absent from the scope, with every shorter padding present, and at most scope-size spaces long |
| Labels.UniqueIsLeast | src/ofxPreset/Gui.inl:24-27 | no padding shorter than the chosen one is free: the label uses the least number of spaces |
| Labels.UniqueUnpadded | src/ofxPreset/Gui.inl:23-24 | a candidate not yet used in the scope is returned as it is |
| Labels.TakenBound | src/ofxPreset/Gui.inl:24-27 | if the first k paddings are all in the scope, the scope holds at least k labels, so the loop terminates |
| Labels.PaddedInjective | src/ofxPreset/Gui.inl:26 | different numbers of appended spaces give different labels |
| Gui.GetUniqueName | src/ofxPreset/Gui.inl:21-30 | the result is the padded candidate, new to the innermost scope and least; the innermost scope gains exactly that label, the outer scopes and the settings stay as they were |
| Gui.Requests | src/ofxPreset/Gui.inl:21-30 | consecutive label requests return pairwise distinct labels, none of them already in the scope, appended to the scope in order |
| Gui.RequestsChosen | src/ofxPreset/Gui.inl:21-30 | label i of consecutive requests is exactly what the padding rule picks for candidate i in the scope as the earlier requests left it: the least padding new to that scope |
| Gui.RequestsPadded | src/ofxPreset/Gui.inl:23-27 | label i of consecutive requests is candidate i followed by spaces |
| Gui.NextOnLadder | src/ofxPreset/Gui.inl:24-27 | when the scope holds c with 0..k-1 spaces, the next label for c has k spaces |
| Gui.LadderContinues | src/ofxPreset/Gui.inl:21-30 | n requests of c after its first k paddings yield the paddings k..k+n-1 in order |
| Gui.SameCandidateInFreshScope | src/ofxPreset/Gui.inl:21-30 | n requests of the same candidate in an empty scope yield c, c plus one space, c plus two spaces, and so on |
| Gui.Grow | src/ofxPreset/Gui.inl:109 | growToInclude yields a normalised rectangle enclosing both rectangles |
| Gui.GrowIsSmallest | src/ofxPreset/Gui.inl:109 | every rectangle enclosing both inputs encloses the grown rectangle |
| Gui.SetNextWindow | src/ofxPreset/Gui.inl:33-37 | the next window is one margin below the previous one and gets width 0; everything else is kept |
| Gui.NextWindowBelow | src/ofxPreset/Gui.inl:33-37 | for a non-negative height, the next window starts strictly below the bottom of the previous one |
| Gui.BeginWindow | src/ofxPreset/Gui.inl:58-75 | inside a window nothing changes and false is returned; otherwise one empty scope is pushed, windowBlock is set, the visibility is the toolkit's, and the open flag is cleared only by the close button |
| Gui.BeginWindowParam | src/ofxPreset/Gui.inl:40-55 | same bracket as BeginWindow; the bool parameter keeps its value unless the close button was pressed, and is untouched when blocked |
| Gui.EndWindow | src/ofxPreset/Gui.inl:78-111 | outside a window a no-op; otherwise pops one scope, clears windowBlock, stores the geometry, ORs the strict mouse-inside test into mouseOverGui, and sets totalBounds to the window when zero, else to the least rectangle enclosing both |
| Gui.BeginTree | src/ofxPreset/Gui.inl:120-140 | the label is requested in the enclosing scope whether or not the node opens; only an open node pushes an empty scope and increments treeLevel |
| Gui.EndTree | src/ofxPreset/Gui.inl:143-151 | pops one scope and sets treeLevel to max(0, treeLevel - 1): one less from level 1 up, 0 at level 0 or below; no other setting changes |
| Gui.WfPreserved | src/ofxPreset/Gui.inl:42-148 | every bracket operation keeps a non-negative tree level and a scope for every open window |
| Gui.InnerScopeUnpadded | src/ofxPreset/Gui.inl:132-138 | inside a freshly opened tree node any candidate comes back unpadded, whatever the outer scopes hold |
| Gui.WindowBracketRestores | src/ofxPreset/Gui.inl:66-96 | BeginWindow, any label requests, EndWindow leave the label stack as before and no window open |
| Gui.ParamWindowBracketRestores | src/ofxPreset/Gui.inl:40-96 | the bracket opened by the bool parameter restores the label stack and closes the window, and the parameter can only go from shown to hidden |
| Gui.TreeBracketRestores | src/ofxPreset/Gui.inl:132-148 | an opened tree node, any label requests inside, EndTree: the stack is the enclosing state plus the node's label, and the settings, tree level included, are as before |
| Traversal.AddParameter | src/ofxPreset/Gui.inl:298-424 | one label request in the innermost scope; the value changes exactly when the widget reports an edit, to the edited value |
| Traversal.AddGroup | src/ofxPreset/Gui.inl:154-259 | stack depth, windowBlock and treeLevel are as on entry; inside a window only the group's own label is added; mouseOverGui never goes back to false; only values change, and each parameter keeps its value or takes one its widget reported as entered; the widgets shown are a subsequence, in order, of the supported parameters |
| Traversal.AddNestedGroup | src/ofxPreset/Gui.inl:157-163 | a group inside a window adds only its own label to the enclosing scope and leaves every setting as it was, whether or not its node opens; values change only by widget edits |
| Traversal.AddWindowGroup | src/ofxPreset/Gui.inl:164-171 | a group outside any window leaves the label stack and tree level as they were, ends with no window open, never clears mouseOverGui, and changes values only by widget edits |
| Traversal.AddEntry | src/ofxPreset/Gui.inl:173-246 | an entry adds labels to the innermost scope only and keeps the tree's shape, changing values only by widget edits; a sub-group is recursed into, a supported parameter gets exactly one widget whose unique label is taken from the current scope, anything else is skipped and leaves state and entry untouched |
| Traversal.AddEntries | src/ofxPreset/Gui.inl:173-247 | the loop over entries adds labels to the innermost scope only, keeps the shape, changes values only by widget edits, and shows widgets in entry order |
| Traversal.NoEditsKeepValues | src/ofxPreset/Gui.inl:154-259 | when no widget reports an edit, a pass returns the parameter tree exactly as it was |
| Traversal.NoEditsKeepEntry | src/ofxPreset/Gui.inl:173-246 | when no widget reports an edit, a single entry, group or parameter, comes back unchanged |
| Traversal.NoEditsKeepEntries | src/ofxPreset/Gui.inl:173-247 | when no widget reports an edit, the entry loop returns every entry unchanged |
| Traversal.AllOpenVisitsAll | src/ofxPreset/Gui.inl:154-259 | with every window and node expanded, exactly the supported parameters get widgets, depth first, in order |
| Traversal.AllOpenVisitsAllEntries | src/ofxPreset/Gui.inl:173-247 | with everything expanded, the entry loop shows every supported parameter in order |
| Traversal.CollapsedNodeSkipsEntries | src/ofxPreset/Gui.inl:157-163 | a collapsed tree node costs only its label; no entry is visited or changed |
| Traversal.CollapsedWindowSkipsEntries | src/ofxPreset/Gui.inl:164-170 | a collapsed window is ended at once: the stack is as before, no entry is visited or changed |
| Traversal.UnsupportedSkipped | src/ofxPreset/Gui.inl:184-246 | a parameter without a widget changes nothing, and the entries after it behave exactly as if it were absent |
| Traversal.PassFromDefaults | src/ofxPreset/Gui.inl:6-12 | a pass starting from the default settings ends with no window open, tree level 0 and the label stack as it was |
| Json.Put | src/ofxPreset/Serializer.inl:52 | `json[name] = v` succeeds exactly on null or an object, stores v under the key and leaves every other key as it was |
| Json.PushBack | src/ofxPreset/Serializer.inl:15 | push_back succeeds exactly on null or an array and appends one string |
| Json.PushAll | src/ofxPreset/Serializer.inl:11-16 | pushing nothing leaves the document; otherwise it succeeds exactly on null or an array and appends the strings in order |
| Json.AsString | src/ofxPreset/Serializer.inl:66 | conversion to a string succeeds exactly on a string value, yielding its text |
| Json.ValuesByKey | src/ofxPreset/Serializer.inl:34 | iterating an object yields its values in ascending key order, one per key |
| Json.ValuesByKeyMembers | src/ofxPreset/Serializer.inl:34 | iterating an object yields as many values as it has keys, and exactly the values it holds |
| Json.Elements | src/ofxPreset/Serializer.inl:34 | iteration visits nothing for null, the items of an array, the values of an object in ascending key order, and a scalar itself |
| Ordering.SortedKeys | src/ofxPreset/Serializer.inl:34 | an object's keys are iterated once each, in strictly increasing order, with no key repeated |
| Serializer.SerializeParam | src/ofxPreset/Serializer.inl:47-56 | a non-serializable parameter leaves the document; otherwise the name maps to the value's string, every other key is unchanged, and only null or an object accept it |
| Serializer.SerializeNode | src/ofxPreset/Serializer.inl:84-101 | an entry writes every key it owns and leaves all other keys as they were; an entry that owns no key (a null entry, a non-serializable one, an unnamed group of such) returns the document untouched |
| Serializer.SerializeGroup | src/ofxPreset/Serializer.inl:78-109 | a non-serializable group leaves the document; a named group stores under its name exactly what its entries write into the previous value there; an unnamed one writes into the current object; all other keys are unchanged, and a group that owns no key returns the document untouched |
| Serializer.SerializeChildren | src/ofxPreset/Serializer.inl:84-102 | the entries together write their keys and leave all other keys as they were; entries that own no key return the document untouched, even when it is not an object |
| Serializer.SerializeChildrenAppend | src/ofxPreset/Serializer.inl:84-102 | entries are written strictly in list order: serializing a + b is serializing a, then b into the result |
| Serializer.DeserializeParam | src/ofxPreset/Serializer.inl:59-75 | the value changes only for a serializable parameter whose key holds a non-empty string, and then to fromString of it; a non-string stored value is a type error |
| Serializer.DeserializeNode | src/ofxPreset/Serializer.inl:124-146 | a null entry is skipped; an entry keeps its shape |
| Serializer.DeserializeGroup | src/ofxPreset/Serializer.inl:112-153 | a non-serializable group, or a named group whose key is missing, is returned unchanged; otherwise its entries are read from the current object (unnamed) or from the value under its name |
| Serializer.DeserializeChildren | src/ofxPreset/Serializer.inl:124-146 | succeeds iff every entry does; entry i of the result is entry i read from the same object, so entries stay in place and do not affect each other |
| Serializer.DeserializeReadsOnlyKeys | src/ofxPreset/Serializer.inl:112-153 | deserializing reads only the entry's own keys: documents agreeing on them give the same result |
| Serializer.DeserializeChildrenReadsOnlyKeys | src/ofxPreset/Serializer.inl:124-146 | a list of entries reads only the keys of its entries |
| Serializer.Strings | src/ofxPreset/Serializer.inl:11-16 | one string per value, in order |
| Serializer.SerializeValues | src/ofxPreset/Serializer.inl:7-19 | the strings of the values are appended, in order, after whatever the target array already held; an empty name targets the document itself; an empty vector leaves an existing member as it was and otherwise inserts null; other keys are unchanged |
| Serializer.ParseAll | src/ofxPreset/Serializer.inl:34-41 | one value per element, element i parsed from element i's string; a non-string element is a type error |
| Serializer.DeserializeValues | src/ofxPreset/Serializer.inl:22-44 | a missing named key leaves the values; otherwise they are replaced by one value per stored element, in order |
| Serializer.ValuesRoundTrip | src/ofxPreset/Serializer.inl:7-44 | values serialized into a fresh place read back as the same values, whatever the vector held before |
| Serializer.SerializeValuesTwiceAppends | src/ofxPreset/Serializer.inl:7-19 | serializing the same values twice under one name stores them twice |
| RoundTrip.SerializeWrites | src/ofxPreset/Serializer.inl:78-109 | a well-keyed entry serialized into an object lacking its keys adds exactly the entry's fragment |
| RoundTrip.SerializeChildrenWrites | src/ofxPreset/Serializer.inl:84-102 | well-keyed entries with distinct keys add exactly the union of their fragments |
| RoundTrip.DeserializeRestores | src/ofxPreset/Serializer.inl:112-153 | a document holding an entry's fragment restores the entry into any stale entry of the same shape |
| RoundTrip.DeserializeChildrenRestores | src/ofxPreset/Serializer.inl:124-146 | a document holding the entries' fragments restores all entries in place |
| RoundTrip.RoundTrip | src/ofxPreset/Serializer.inl:47-153 | a serializable, well-keyed tree serialized into a document lacking its keys and deserialized into any tree of the same shape comes back unchanged, given fromString inverts a non-empty toString |

## Left out

- The widget bodies of the `AddParameter` overloads, `AddRadio`, `AddStepper`, `AddRange`, `AddValues` and `AddImage` (src/ofxPreset/Gui.inl:262-626): ImGui calls on float data. A widget is one label request plus a "changed" answer supplied as a parameter.
- Camera, EasyCam and node serialization (src/ofxPreset/Serializer.inl:156-289): fixed float field lists parsed by the host library.
- `toString`, `fromString` and the stream operators: host framework formatting, taken as function parameters; the round trips assume `fromString(toString(v)) == v` and a non-empty `toString`.
- nlohmann::json exceptions: a `type_error` is a `TypeError` result. What a document or a vector holds after a partial write or read that threw half-way is not modelled.
- Window geometry and the mouse position are integers supplied by the toolkit; float rounding is not modelled.
- `windowOpen.parameter` reference bookkeeping, the `c_str()` lifetime of returned labels, and logging.
- Gui.h declares `usedNames` as a vector and lacks `treeLevel` and `totalBounds`; the model follows Gui.inl, which uses a stack and both fields.
- Gui.EndTree: popping an empty stack is undefined in the source; a non-empty stack is a precondition. Gui.EndWindow likewise requires a scope when a window is open, which BeginWindow guarantees.
- Traversal.AddGroup: a null entry in a group is dereferenced when the warning at src/ofxPreset/Gui.inl:246 is logged; trees with null entries are excluded by a precondition.
- Traversal.AddGroup: the glm integer vector types have `AddParameter` overloads, but AddGroup never dispatches to them, so they are skipped like any unknown type.
- Traversal.AddGroup: the toolkit's answers depend only on the window name or label, not on earlier frames or on ImGui's own state.
- Traversal.AddGroup: the contract states that the widgets shown are an ordered subsequence of the supported parameters; the exact set under partial collapse is given by the definition and the skip lemmas rather than as a closed formula.
- Groups hold shared pointers, so one parameter object can sit in a tree twice; the model's parameter tree holds values, so two occurrences are independent copies. In the source the second widget shows the first one's edit and the later deserialization write wins for both; the model does not tie the occurrences together.
- The references the source returns (the JSON sub-object written to, the label pointer) are not modelled; the functions return the whole new document or state.
- The overloads `GetUniqueName(ofAbstractParameter&)` and `BeginTree(ofAbstractParameter&, settings)` (src/ofxPreset/Gui.inl:15-18, 114-117) only pass the parameter's name on, so they are covered by the name-taking versions.

=== FILE: gui.dfy ===
/** The window / tree bracket state machine of ofxPreset::Gui: the stack of
    used-label lists (one list per open window or tree node, innermost last)
    and the Settings record threaded through BeginWindow / EndWindow /
    BeginTree / EndTree. Answers of the GUI toolkit are parameters. */
module Gui {
  import opened Labels
  import Ordering

  /** kGuiMargin: the gap, in pixels, the layout keeps around windows. */
  const GuiMargin: int := 10

  datatype Vec2 = Vec2(x: int, y: int)

  /** ofRectangle: a corner and a width and height, either of which may be negative. */
  datatype Rect = Rect(x: int, y: int, w: int, h: int)

  function Min(a: int, b: int): int { if a <= b then a else b }
  function Max(a: int, b: int): int { if a <= b then b else a }

  function MinX(r: Rect): int { Min(r.x, r.x + r.w) }
  function MaxX(r: Rect): int { Max(r.x, r.x + r.w) }
  function MinY(r: Rect): int { Min(r.y, r.y + r.h) }
  function MaxY(r: Rect): int { Max(r.y, r.y + r.h) }

  /** ofRectangle::isZero. */
  predicate IsZero(r: Rect)
  {
    r.x == 0 && r.y == 0 && r.w == 0 && r.h == 0
  }

  /** ofRectangle::inside(x, y): strictly inside, the border excluded. */
  predicate Inside(r: Rect, p: Vec2)
  {
    MinX(r) < p.x < MaxX(r) && MinY(r) < p.y < MaxY(r)
  }

  /** Every point of inner lies in outer. */
  predicate Encloses(outer: Rect, inner: Rect)
  {
    MinX(outer) <= MinX(inner) && MaxX(inner) <= MaxX(outer) &&
    MinY(outer) <= MinY(inner) && MaxY(inner) <= MaxY(outer)
  }

  /** ofRectangle::growToInclude(rect): the bounding box of both rectangles. */
  function Grow(a: Rect, b: Rect): (r: Rect)
    ensures Encloses(r, a) && Encloses(r, b)
    ensures r.w >= 0 && r.h >= 0
  {
    var x0 := Min(MinX(a), MinX(b));
    var y0 := Min(MinY(a), MinY(b));
    var x1 := Max(MaxX(a), MaxX(b));
    var y1 := Max(MaxY(a), MaxY(b));
    Rect(x0, y0, x1 - x0, y1 - y0)
  }

  /** Grow adds nothing beyond what both rectangles need. */
  lemma GrowIsSmallest(a: Rect, b: Rect, c: Rect)
    requires Encloses(c, a) && Encloses(c, b)
    ensures Encloses(c, Grow(a, b))
  {
  }

  /** Gui::Settings. */
  datatype Settings = Settings(
    windowPos: Vec2,
    windowSize: Vec2,
    windowBlock: bool,     // inside BeginWindow .. EndWindow
    treeLevel: int,        // number of open tree nodes
    mouseOverGui: bool,
    totalBounds: Rect)

  /** Settings::Settings(): first window at (margin, margin), auto-sized, nothing open. */
  const DefaultSettings := Settings(Vec2(GuiMargin, GuiMargin), Vec2(0, 0), false, 0, false, Rect(0, 0, 0, 0))

  /** The whole state: the used-label stack (innermost scope last) and the settings. */
  datatype State = State(names: seq<seq<string>>, settings: Settings)

  /** The states the operations below keep: a non-negative tree level, and an
      open window always has a scope of its own. */
  predicate Wf(st: State)
  {
    st.settings.treeLevel >= 0 && (st.settings.windowBlock ==> |st.names| > 0)
  }

  function Top(st: State): seq<string>
    requires |st.names| > 0
  {
    st.names[|st.names| - 1]
  }

  /** Only the innermost scope differs; all the enclosing ones are the same. */
  predicate SameBelowTop(a: State, b: State)
  {
    |a.names| == |b.names| && |a.names| > 0 &&
    forall i :: 0 <= i < |a.names| - 1 ==> a.names[i] == b.names[i]
  }

  datatype Named = Named(state: State, name: string)

  /** Gui::GetUniqueName: pads the candidate with the fewest spaces that make it
      new to the innermost scope, and records the result there. */
  function GetUniqueName(st: State, candidate: string): (r: Named)
    requires |st.names| > 0
    ensures |candidate| <= |r.name|
    ensures r.name == Padded(candidate, |r.name| - |candidate|)
    ensures r.name !in Top(st)
    ensures Taken(Top(st), candidate, |r.name| - |candidate|)
    ensures SameBelowTop(st, r.state)
    ensures Top(r.state) == Top(st) + [r.name]
    ensures r.state.settings == st.settings
  {
    var padded := Unique(Top(st), candidate);
    Named(State(st.names[|st.names| - 1 := Top(st) + [padded]], st.settings), padded)
  }

  datatype Issued = Issued(state: State, labels: seq<string>)

  /** labels[i] is what GetUniqueName picks for cs[i] once the scope holds top
      followed by the labels before it. */
  predicate ChosenInOrder(top: seq<string>, cs: seq<string>, labels: seq<string>)
  {
    |labels| == |cs| &&
    forall i :: 0 <= i < |cs| ==> labels[i] == Unique(top + labels[..i], cs[i])
  }

  /** Consecutive GetUniqueName calls, one per candidate, in order. */
  function Requests(st: State, cs: seq<string>): (r: Issued)
    requires |st.names| > 0
    ensures |r.labels| == |cs|
    ensures SameBelowTop(st, r.state)
    ensures Top(r.state) == Top(st) + r.labels
    ensures r.state.settings == st.settings
    ensures forall i :: 0 <= i < |cs| ==> r.labels[i] !in Top(st)
    ensures Ordering.Distinct(r.labels)
    decreases |cs|
  {
    if |cs| == 0 then Issued(st, [])
    else
      var first := GetUniqueName(st, cs[0]);
      var rest := Requests(first.state, cs[1..]);
      Issued(rest.state, [first.name] + rest.labels)
  }

  /** Label i of consecutive requests is the least padding of candidate i that is
      new to the scope as the earlier requests left it. */
  lemma {:induction false} RequestsChosen(st: State, cs: seq<string>)
    requires |st.names| > 0
    ensures ChosenInOrder(Top(st), cs, Requests(st, cs).labels)
    decreases |cs|
  {
    if |cs| > 0 {
      var first := GetUniqueName(st, cs[0]);
      RequestsChosen(first.state, cs[1..]);
      RequestsShift(Top(st), cs, first.name, Requests(first.state, cs[1..]).labels);
    }
  }

  /** Request 0 sees the scope as it was; request i + 1 sees it after the first
      label and the next i labels of the remaining requests. */
  lemma RequestsShift(top: seq<string>, cs: seq<string>, first: string, rest: seq<string>)
    requires |cs| > 0
    requires first == Unique(top, cs[0])
    requires ChosenInOrder(top + [first], cs[1..], rest)
    ensures ChosenInOrder(top, cs, [first] + rest)
  {
    var labels := [first] + rest;
    forall i | 0 <= i < |cs| ensures labels[i] == Unique(top + labels[..i], cs[i]) {
      if i == 0 {
        assert top + labels[..0] == top;
      } else {
        assert labels[..i] == [first] + rest[..i - 1];
        assert top + labels[..i] == (top + [first]) + rest[..i - 1];
        assert cs[1..][i - 1] == cs[i];
      }
    }
  }

  /** Each label chosen by the padding rule is its candidate followed by spaces. */
  lemma UniqueLabelsPadded(top: seq<string>, cs: seq<string>, labels: seq<string>)
    requires ChosenInOrder(top, cs, labels)
    ensures forall i :: 0 <= i < |cs| ==>
      |cs[i]| <= |labels[i]| && labels[i] == Padded(cs[i], |labels[i]| - |cs[i]|)
  {
    forall i | 0 <= i < |cs|
      ensures |cs[i]| <= |labels[i]| && labels[i] == Padded(cs[i], |labels[i]| - |cs[i]|)
    {
      var u := Unique(top + labels[..i], cs[i]);
      assert labels[i] == u;
    }
  }

  /** Label i of consecutive requests is candidate i followed by spaces. */
  lemma RequestsPadded(st: State, cs: seq<string>)
    requires |st.names| > 0
    ensures var r := Requests(st, cs);
      forall i :: 0 <= i < |cs| ==>
        |cs[i]| <= |r.labels[i]| && r.labels[i] == Padded(cs[i], |r.labels[i]| - |cs[i]|)
  {
    RequestsChosen(st, cs);
    UniqueLabelsPadded(Top(st), cs, Requests(st, cs).labels);
  }

  function Repeat(c: string, n: nat): (s: seq<string>)
    ensures |s| == n && forall i :: 0 <= i < n ==> s[i] == c
  {
    seq(n, _ => c)
  }

  /** The n paddings of c with from, from + 1, ..., from + n - 1 spaces, in order. */
  function Ladder(c: string, from: nat, n: nat): (s: seq<string>)
    ensures |s| == n && forall i :: 0 <= i < n ==> s[i] == Padded(c, from + i)
  {
    seq(n, i requires 0 <= i < n => Padded(c, from + i))
  }

  /** When the scope holds exactly c, c + " ", ..., (k labels), the next label for c has k spaces. */
  lemma NextOnLadder(scope: seq<string>, c: string, k: nat)
    requires scope == Ladder(c, 0, k)
    ensures Unique(scope, c) == Padded(c, k)
  {
    forall j | 0 <= j < k ensures Padded(c, j) in scope {
      assert scope[j] == Padded(c, j);
    }
    assert Taken(scope, c, k);
    forall i | 0 <= i < k ensures scope[i] != Padded(c, k) {
      PaddedInjective(c, i, k);
    }
    UniqueIsLeast(scope, c, k);
  }

  lemma LadderSnoc(c: string, from: nat, n: nat)
    ensures Ladder(c, from, n) + [Padded(c, from + n)] == Ladder(c, from, n + 1)
  {
  }

  lemma LadderCons(c: string, from: nat, n: nat)
    requires n > 0
    ensures [Padded(c, from)] + Ladder(c, from + 1, n - 1) == Ladder(c, from, n)
  {
  }

  /** n requests of one candidate in a scope that so far holds its first k
      paddings yield the next n paddings. */
  lemma {:induction false} LadderContinues(st: State, c: string, k: nat, n: nat)
    requires |st.names| > 0 && Top(st) == Ladder(c, 0, k)
    ensures Requests(st, Repeat(c, n)).labels == Ladder(c, k, n)
    decreases n
  {
    if n > 0 {
      var cs := Repeat(c, n);
      NextOnLadder(Top(st), c, k);
      var first := GetUniqueName(st, cs[0]);
      assert first.name == Padded(c, k);
      LadderSnoc(c, 0, k);
      assert cs[1..] == Repeat(c, n - 1);
      LadderContinues(first.state, c, k + 1, n - 1);
      var rest := Requests(first.state, cs[1..]);
      assert Requests(st, cs).labels == [first.name] + rest.labels;
      LadderCons(c, k, n);
    }
  }

  /** n requests of the same candidate in a freshly pushed scope yield c,
      c + " ", c + "  ", ..., all different. */
  lemma SameCandidateInFreshScope(st: State, c: string, n: nat)
    requires |st.names| > 0 && Top(st) == []
    ensures Requests(st, Repeat(c, n)).labels == Ladder(c, 0, n)
  {
    assert Ladder(c, 0, 0) == [];
    LadderContinues(st, c, 0, n);
  }

  /** Gui::SetNextWindow: the next window goes one margin below the last one and
      gets its width from its contents again. */
  function SetNextWindow(s: Settings): (r: Settings)
    ensures r.windowPos.y == s.windowPos.y + s.windowSize.y + GuiMargin
    ensures r.windowPos.x == s.windowPos.x && r.windowSize.x == 0 && r.windowSize.y == s.windowSize.y
    ensures r.windowBlock == s.windowBlock && r.treeLevel == s.treeLevel
    ensures r.mouseOverGui == s.mouseOverGui && r.totalBounds == s.totalBounds
  {
    s.(windowSize := Vec2(0, s.windowSize.y),
       windowPos := Vec2(s.windowPos.x, s.windowPos.y + s.windowSize.y + GuiMargin))
  }

  /** A window placed by SetNextWindow starts strictly below the previous one. */
  lemma NextWindowBelow(s: Settings)
    requires s.windowSize.y >= 0
    ensures SetNextWindow(s).windowPos.y > MaxY(Rect(s.windowPos.x, s.windowPos.y, s.windowSize.x, s.windowSize.y))
  {
  }

  datatype Option<T> = None | Some(value: T)

  /** What ImGui::Begin reports: whether the window is expanded, and whether the
      user pressed its close button this frame. */
  datatype WindowAnswer = WindowAnswer(visible: bool, closeClicked: bool)

  datatype Opened = Opened(state: State, visible: bool, open: Option<bool>)

  /** Gui::BeginWindow(name, settings, collapse, open). `open` is the optional
      pointer to the caller's "window shown" flag (None for nullptr); the toolkit
      clears it when the close button is pressed. */
  function BeginWindow(st: State, open: Option<bool>, answer: WindowAnswer): (r: Opened)
    ensures st.settings.windowBlock ==> r == Opened(st, false, open)
    ensures !st.settings.windowBlock ==>
      r.state.names == st.names + [[]] &&
      r.state.settings == st.settings.(windowBlock := true) &&
      r.visible == answer.visible
    ensures open.None? ==> r.open.None?
    ensures open.Some? && !st.settings.windowBlock ==>
      r.open == Some(open.value && !answer.closeClicked)
  {
    if st.settings.windowBlock then Opened(st, false, open)
    else
      var st' := State(st.names + [[]], st.settings.(windowBlock := true));
      var open' := match open
        case None => None
        case Some(b) => Some(if answer.closeClicked then false else b);
      Opened(st', answer.visible, open')
  }

  datatype ParamOpened = ParamOpened(state: State, visible: bool, param: bool)

  /** Gui::BeginWindow(ofParameter<bool>, settings, collapse): the parameter is the
      window's "shown" flag and receives what the toolkit left in it. */
  function BeginWindowParam(st: State, param: bool, answer: WindowAnswer): (r: ParamOpened)
    ensures st.settings.windowBlock ==> r == ParamOpened(st, false, param)
    ensures !st.settings.windowBlock ==>
      r.state.names == st.names + [[]] &&
      r.state.settings == st.settings.(windowBlock := true) &&
      r.visible == answer.visible
    ensures !st.settings.windowBlock ==> (r.param <==> param && !answer.closeClicked)
  {
    if st.settings.windowBlock then ParamOpened(st, false, param)
    else
      var w := BeginWindow(st, Some(param), answer);
      ParamOpened(w.state, w.visible, w.open.value)
  }

  /** What EndWindow reads back from the toolkit: the window's position and size,
      and the mouse position. */
  datatype Geometry = Geometry(pos: Vec2, size: Vec2, mouse: Vec2)

  function Bounds(g: Geometry): Rect
  {
    Rect(g.pos.x, g.pos.y, g.size.x, g.size.y)
  }

  /** Gui::EndWindow. */
  function EndWindow(st: State, geo: Geometry): (r: State)
    requires st.settings.windowBlock ==> |st.names| > 0
    ensures !st.settings.windowBlock ==> r == st
    ensures st.settings.windowBlock ==>
      !r.settings.windowBlock &&
      r.names == st.names[..|st.names| - 1] &&
      r.settings.windowPos == geo.pos && r.settings.windowSize == geo.size &&
      r.settings.treeLevel == st.settings.treeLevel
    ensures st.settings.mouseOverGui ==> r.settings.mouseOverGui
    ensures st.settings.windowBlock ==>
      (r.settings.mouseOverGui <==> st.settings.mouseOverGui || Inside(Bounds(geo), geo.mouse))
    ensures st.settings.windowBlock && IsZero(st.settings.totalBounds) ==>
      r.settings.totalBounds == Bounds(geo)
    ensures st.settings.windowBlock && !IsZero(st.settings.totalBounds) ==>
      Encloses(r.settings.totalBounds, st.settings.totalBounds) &&
      Encloses(r.settings.totalBounds, Bounds(geo)) &&
      forall c :: Encloses(c, st.settings.totalBounds) && Encloses(c, Bounds(geo)) ==>
        Encloses(c, r.settings.totalBounds)
  {
    if !st.settings.windowBlock then st
    else
      var s := st.settings;
      var bounds := Bounds(geo);
      var total := if IsZero(s.totalBounds) then bounds else Grow(s.totalBounds, bounds);
      var s' := s.(windowBlock := false, windowPos := geo.pos, windowSize := geo.size,
                   mouseOverGui := s.mouseOverGui || Inside(bounds, geo.mouse),
                   totalBounds := total);
      State(st.names[..|st.names| - 1], s')
  }

  datatype TreeOpened = TreeOpened(state: State, name: string, open: bool)

  /** Gui::BeginTree. The label is registered in the enclosing scope whether or not
      the node opens. `nodeOpen(label, header)` is the toolkit's answer: a
      collapsing header at level 0, a tree node below. */
  function BeginTree(st: State, name: string, nodeOpen: (string, bool) -> bool): (r: TreeOpened)
    requires |st.names| > 0
    ensures r.name == GetUniqueName(st, name).name
    ensures r.open == nodeOpen(r.name, st.settings.treeLevel == 0)
    ensures |r.state.names| == |st.names| + (if r.open then 1 else 0)
    ensures r.state.names[..|st.names|] == GetUniqueName(st, name).state.names
    ensures r.open ==>
      |r.state.names| == |st.names| + 1 && r.state.names[|st.names|] == [] &&
      r.state.settings == st.settings.(treeLevel := st.settings.treeLevel + 1)
    ensures !r.open ==> r.state == GetUniqueName(st, name).state
  {
    var n := GetUniqueName(st, name);
    var open := nodeOpen(n.name, st.settings.treeLevel == 0);
    if open then
      var s := n.state.settings;
      TreeOpened(State(n.state.names + [[]], s.(treeLevel := s.treeLevel + 1)), n.name, true)
    else TreeOpened(n.state, n.name, false)
  }

  /** Gui::EndTree. */
  function EndTree(st: State): (r: State)
    requires |st.names| > 0
    ensures r.names == st.names[..|st.names| - 1]
    ensures r.settings.treeLevel >= 0
    ensures st.settings.treeLevel >= 1 ==> r.settings.treeLevel == st.settings.treeLevel - 1
    ensures st.settings.treeLevel <= 0 ==> r.settings.treeLevel == 0
    ensures r.settings == st.settings.(treeLevel := r.settings.treeLevel)
  {
    var s := st.settings;
    State(st.names[..|st.names| - 1], s.(treeLevel := Max(0, s.treeLevel - 1)))
  }

  /** Every operation keeps Wf. */
  lemma WfPreserved(st: State, name: string, answer: WindowAnswer, geo: Geometry,
                    nodeOpen: (string, bool) -> bool)
    requires Wf(st)
    ensures Wf(BeginWindow(st, None, answer).state)
    ensures Wf(EndWindow(st, geo))
    ensures |st.names| > 0 ==> Wf(BeginTree(st, name, nodeOpen).state)
    ensures |st.names| > 1 ==> Wf(EndTree(st))
    ensures |st.names| > 0 ==> Wf(GetUniqueName(st, name).state)
  {
  }

  /** A label already used outside comes back unpadded inside a tree node that
      just opened: uniqueness is per scope. */
  lemma InnerScopeUnpadded(st: State, name: string, c: string, nodeOpen: (string, bool) -> bool)
    requires |st.names| > 0
    requires BeginTree(st, name, nodeOpen).open
    ensures GetUniqueName(BeginTree(st, name, nodeOpen).state, c).name == c
  {
    UniqueUnpadded([], c);
  }

  /** A window bracket leaves the label stack as it found it, whatever the
      toolkit answered and whatever labels were requested inside. */
  lemma WindowBracketRestores(st: State, answer: WindowAnswer, inside: seq<string>, geo: Geometry)
    requires !st.settings.windowBlock
    ensures var w := BeginWindow(st, None, answer).state;
      EndWindow(Requests(w, inside).state, geo).names == st.names &&
      !EndWindow(Requests(w, inside).state, geo).settings.windowBlock
  {
  }

  /** The parameter-driven window bracket also restores the label stack, and the
      "shown" parameter can only be switched off by it, never on. */
  lemma ParamWindowBracketRestores(st: State, param: bool, answer: WindowAnswer, inside: seq<string>, geo: Geometry)
    requires !st.settings.windowBlock
    ensures var w := BeginWindowParam(st, param, answer);
      EndWindow(Requests(w.state, inside).state, geo).names == st.names &&
      !EndWindow(Requests(w.state, inside).state, geo).settings.windowBlock &&
      (w.param ==> param)
  {
  }

  /** An opened tree bracket leaves the tree level and the enclosing scopes as
      they were, apart from the node's own label. */
  lemma TreeBracketRestores(st: State, name: string, nodeOpen: (string, bool) -> bool, inside: seq<string>)
    requires |st.names| > 0 && st.settings.treeLevel >= 0
    requires BeginTree(st, name, nodeOpen).open
    ensures var t := BeginTree(st, name, nodeOpen);
      var e := EndTree(Requests(t.state, inside).state);
      e.names == GetUniqueName(st, name).state.names &&
      e.settings == st.settings
  {
  }
}

=== FILE: json.dfy ===
/** The JSON document of the serializer (nlohmann::json), reduced to the
    operations the serializer uses: `count`, `operator[]` (reading and writing),
    `push_back`, iteration, and conversion to std::string. */
module Json {
  import Ordering

  datatype Json =
    | Null                               // a default-constructed document
    | Bool(b: bool)
    | Num(n: int)
    | Str(s: string)
    | Arr(items: seq<Json>)
    | Obj(fields: map<string, Json>)

  /** nlohmann::json signals a value of the wrong type by throwing type_error. */
  datatype Result<T> = Ok(value: T) | TypeError

  /** `j.count(key) != 0`: only an object holds keys. */
  predicate Has(j: Json, key: string)
  {
    j.Obj? && key in j.fields
  }

  /** `j[key]` through the const operator[], defined only when the key is present. */
  function At(j: Json, key: string): Json
    requires Has(j, key)
  {
    j.fields[key]
  }

  /** What the non-const operator[] yields: the stored value, or the null it inserts. */
  function Child(j: Json, key: string): (c: Json)
    ensures Has(j, key) ==> c == At(j, key)
    ensures !Has(j, key) ==> c == Null
  {
    if Has(j, key) then At(j, key) else Null
  }

  /** Only null (which silently becomes an object) and objects accept `j[key]`. */
  predicate Writable(j: Json)
  {
    j.Null? || j.Obj?
  }

  /** j and j' hold the same thing under key. */
  predicate SameAt(j: Json, j': Json, key: string)
  {
    Has(j, key) == Has(j', key) && (Has(j, key) ==> At(j, key) == At(j', key))
  }

  /** `j[key] = v`. */
  function Put(j: Json, key: string, v: Json): (r: Result<Json>)
    ensures r.Ok? <==> Writable(j)
    ensures r.Ok? ==> Has(r.value, key) && At(r.value, key) == v
    ensures r.Ok? ==> forall k :: k != key ==> SameAt(j, r.value, k)
  {
    match j
    case Null => Ok(Obj(map[key := v]))
    case Obj(m) => Ok(Obj(m[key := v]))
    case _ => TypeError
  }

  /** The entries a `push_back` appends to: none for null, the items of an array. */
  function Items(j: Json): seq<Json>
    requires j.Null? || j.Arr?
  {
    if j.Arr? then j.items else []
  }

  /** `j.push_back(s)`: null becomes a one-element array, an array grows by one. */
  function PushBack(j: Json, s: string): (r: Result<Json>)
    ensures r.Ok? <==> (j.Null? || j.Arr?)
    ensures r.Ok? ==> r.value.Arr? && r.value.items == Items(j) + [Str(s)]
  {
    match j
    case Null => Ok(Arr([Str(s)]))
    case Arr(a) => Ok(Arr(a + [Str(s)]))
    case _ => TypeError
  }

  /** One `push_back` per string, in order; with nothing to push the document is untouched. */
  function PushAll(j: Json, ss: seq<string>): (r: Result<Json>)
    ensures |ss| == 0 ==> r == Ok(j)
    ensures |ss| > 0 ==> (r.Ok? <==> (j.Null? || j.Arr?))
    ensures |ss| > 0 && r.Ok? ==>
      r.value.Arr? && r.value.items == Items(j) + seq(|ss|, i requires 0 <= i < |ss| => Str(ss[i]))
    decreases |ss|
  {
    if |ss| == 0 then Ok(j)
    else
      match PushBack(j, ss[0])
      case TypeError => TypeError
      case Ok(j1) => PushAll(j1, ss[1..])
  }

  /** `std::string s = j`: only a string converts. */
  function AsString(j: Json): (r: Result<string>)
    ensures r.Ok? <==> j.Str?
    ensures r.Ok? ==> r.value == j.s
  {
    if j.Str? then Ok(j.s) else TypeError
  }

  /** The values m holds under the keys ks, in the order of ks. */
  function ValuesAt(m: map<string, Json>, ks: seq<string>): (es: seq<Json>)
    requires forall k :: k in ks ==> k in m
    ensures |es| == |ks|
    ensures forall i :: 0 <= i < |ks| ==> es[i] == m[ks[i]]
  {
    if ks == [] then [] else [m[ks[0]]] + ValuesAt(m, ks[1..])
  }

  /** The values of an object, in increasing key order. */
  function ValuesByKey(m: map<string, Json>): (es: seq<Json>)
    ensures var ks := Ordering.SortedKeys(m.Keys);
      |es| == |ks| && forall i :: 0 <= i < |ks| ==> es[i] == m[ks[i]]
  {
    ValuesAt(m, Ordering.SortedKeys(m.Keys))
  }

  /** Listing an object's values by key yields each value, and only those,
      one entry per key. */
  lemma ValuesByKeyMembers(m: map<string, Json>)
    ensures |ValuesByKey(m)| == |m|
    ensures forall v :: v in ValuesByKey(m) <==> v in m.Values
  {
    var ks := Ordering.SortedKeys(m.Keys);
    var es := ValuesByKey(m);
    assert |ks| == |m.Keys| == |m|;
    forall v | v in m.Values ensures v in es {
      var k :| k in m && m[k] == v;
      var i :| 0 <= i < |ks| && ks[i] == k;
      assert es[i] == v;
    }
    forall v | v in es ensures v in m.Values {
      var i :| 0 <= i < |es| && es[i] == v;
      assert ks[i] in ks;
    }
  }

  /** What a range-for over j visits: nothing for null, the items of an array,
      the values of an object in increasing key order, and a scalar itself. */
  function Elements(j: Json): (es: seq<Json>)
    ensures j.Null? ==> es == []
    ensures j.Arr? ==> es == j.items
    ensures j.Obj? ==> |es| == |j.fields|
    ensures j.Obj? ==> forall v :: v in es <==> v in j.fields.Values
    ensures j.Obj? ==> var ks := Ordering.SortedKeys(j.fields.Keys);
      |es| == |ks| && forall i :: 0 <= i < |ks| ==> es[i] == j.fields[ks[i]]
    ensures (j.Bool? || j.Num? || j.Str?) ==> es == [j]
  {
    match j
    case Null => []
    case Arr(a) => a
    case Obj(m) => ValuesByKeyMembers(m); ValuesByKey(m)
    case _ => [j]
  }
}

=== FILE: labels.dfy ===
/** The padding rule behind Gui::GetUniqueName: a candidate label is extended
    with spaces until it differs from every label already used in the scope. */
module Labels {

  /** k spaces. */
  function Spaces(k: nat): (s: string)
    ensures |s| == k
    ensures forall i :: 0 <= i < k ==> s[i] == ' '
  {
    if k == 0 then "" else Spaces(k - 1) + " "
  }

  /** The candidate followed by k spaces. */
  function Padded(c: string, k: nat): (s: string)
    ensures |s| == |c| + k
  {
    c + Spaces(k)
  }

  /** Different amounts of padding give different labels. */
  lemma PaddedInjective(c: string, i: nat, j: nat)
    ensures Padded(c, i) == Padded(c, j) <==> i == j
  {
  }

  /** Every padding shorter than k is already used in the scope. */
  predicate Taken(scope: seq<string>, c: string, k: nat)
  {
    forall j :: 0 <= j < k ==> Padded(c, j) in scope
  }

  /** A scope holding s distinct labels holds at least s entries. */
  lemma {:induction false} Pigeonhole(s: set<string>, scope: seq<string>)
    requires forall x :: x in s ==> x in scope
    ensures |s| <= |scope|
    decreases |scope|
  {
    if |scope| > 0 {
      var s' := s - {scope[0]};
      forall x | x in s' ensures x in scope[1..] {
        assert x in scope && x != scope[0];
      }
      Pigeonhole(s', scope[1..]);
    } else {
      assert forall x :: x !in s;
    }
  }

  function Paddings(c: string, k: nat): set<string>
  {
    set j | 0 <= j < k :: Padded(c, j)
  }

  lemma {:induction false} PaddingsSize(c: string, k: nat)
    ensures |Paddings(c, k)| == k
  {
    if k > 0 {
      PaddingsSize(c, k - 1);
      assert Paddings(c, k) == Paddings(c, k - 1) + {Padded(c, k - 1)};
      assert Padded(c, k - 1) !in Paddings(c, k - 1);
    }
  }

  /** The padding search never runs past the size of the scope: when the first k
      paddings are all taken, the scope holds at least k labels. */
  lemma TakenBound(scope: seq<string>, c: string, k: nat)
    requires Taken(scope, c, k)
    ensures k <= |scope|
  {
    PaddingsSize(c, k);
    Pigeonhole(Paddings(c, k), scope);
  }

  /** The `while (find(...)) result += " "` loop, started after k spaces. */
  function FirstFree(scope: seq<string>, c: string, k: nat): (n: nat)
    requires Taken(scope, c, k)
    ensures k <= n <= |scope|
    ensures Padded(c, n) !in scope
    ensures Taken(scope, c, n)
    decreases |scope| - k
  {
    TakenBound(scope, c, k);
    if Padded(c, k) in scope then
      TakenBound(scope, c, k + 1);
      FirstFree(scope, c, k + 1)
    else k
  }

  /** The label GetUniqueName returns for candidate c in a scope. */
  function Unique(scope: seq<string>, c: string): (r: string)
    ensures r !in scope
    ensures |c| <= |r| <= |c| + |scope|
    ensures r == Padded(c, |r| - |c|)
    ensures Taken(scope, c, |r| - |c|)
  {
    Padded(c, FirstFree(scope, c, 0))
  }

  /** The padding Unique picks is the least one not yet used. */
  lemma UniqueIsLeast(scope: seq<string>, c: string, k: nat)
    requires Padded(c, k) !in scope
    ensures |Unique(scope, c)| - |c| <= k
  {
  }

  /** An unused candidate comes back unpadded. */
  lemma UniqueUnpadded(scope: seq<string>, c: string)
    requires c !in scope
    ensures Unique(scope, c) == c
  {
    assert Padded(c, 0) == c;
    UniqueIsLeast(scope, c, 0);
  }
}

=== FILE: ordering.dfy ===
/** Lexicographic order on strings (std::string's operator<) and the sorted key
    list of a JSON object, which is the order nlohmann::json iterates an object in. */
module Ordering {

  /** a < b, comparing character by character; a proper prefix is smaller. */
  predicate Less(a: string, b: string)
    decreases |a|
  {
    if |b| == 0 then false
    else if |a| == 0 then true
    else a[0] < b[0] || (a[0] == b[0] && Less(a[1..], b[1..]))
  }

  lemma {:induction false} LessIrreflexive(a: string)
    ensures !Less(a, a)
    decreases |a|
  {
    if |a| > 0 {
      LessIrreflexive(a[1..]);
    }
  }

  lemma {:induction false} LessAsymmetric(a: string, b: string)
    ensures Less(a, b) ==> !Less(b, a)
    decreases |a|
  {
    if |a| > 0 && |b| > 0 {
      LessAsymmetric(a[1..], b[1..]);
    }
  }

  lemma {:induction false} LessTransitive(a: string, b: string, c: string)
    requires Less(a, b) && Less(b, c)
    ensures Less(a, c)
    decreases |a|
  {
    if |a| > 0 && a[0] == b[0] && b[0] == c[0] {
      LessTransitive(a[1..], b[1..], c[1..]);
    }
  }

  lemma {:induction false} LessTotal(a: string, b: string)
    ensures a == b || Less(a, b) || Less(b, a)
    decreases |a|
  {
    if |a| > 0 && |b| > 0 && a[0] == b[0] {
      LessTotal(a[1..], b[1..]);
      if a[1..] == b[1..] {
        assert a == [a[0]] + a[1..] && b == [b[0]] + b[1..];
      }
    }
  }

  /** k is the smallest element of ks. */
  predicate IsLeast(k: string, ks: set<string>)
  {
    k in ks && forall k' :: k' in ks && k' != k ==> Less(k, k')
  }

  lemma {:induction false} LeastExists(ks: set<string>)
    requires ks != {}
    ensures exists k :: IsLeast(k, ks)
    decreases |ks|
  {
    var x :| x in ks;
    if ks == {x} {
      assert IsLeast(x, ks);
    } else {
      var rest := ks - {x};
      LeastExists(rest);
      var y :| IsLeast(y, rest);
      LessTotal(x, y);
      if Less(x, y) {
        forall k' | k' in ks && k' != x ensures Less(x, k') {
          if k' != y {
            LessTransitive(x, y, k');
          }
        }
        assert IsLeast(x, ks);
      } else {
        assert IsLeast(y, ks);
      }
    }
  }

  lemma LeastUnique(a: string, b: string, ks: set<string>)
    requires IsLeast(a, ks) && IsLeast(b, ks)
    ensures a == b
  {
    if a != b {
      LessAsymmetric(a, b);
    }
  }

  /** The smallest key of a non-empty set. */
  function Least(ks: set<string>): (k: string)
    requires ks != {}
    ensures IsLeast(k, ks)
  {
    LeastExists(ks);
    forall a, b | IsLeast(a, ks) && IsLeast(b, ks) ensures a == b {
      LeastUnique(a, b, ks);
    }
    var k :| IsLeast(k, ks);
    k
  }

  /** Strictly increasing. */
  predicate Sorted(s: seq<string>)
  {
    forall i, j :: 0 <= i < j < |s| ==> Less(s[i], s[j])
  }

  /** No string occurs twice. */
  predicate Distinct(s: seq<string>)
  {
    forall i, j :: 0 <= i < j < |s| ==> s[i] != s[j]
  }

  /** A strictly increasing list repeats nothing. */
  lemma SortedDistinct(s: seq<string>)
    requires Sorted(s)
    ensures Distinct(s)
  {
    forall i, j | 0 <= i < j < |s| ensures s[i] != s[j] {
      LessIrreflexive(s[i]);
    }
  }

  /** The keys of a set in increasing order: every key exactly once. */
  function SortedKeys(ks: set<string>): (s: seq<string>)
    ensures |s| == |ks|
    ensures forall k :: k in ks <==> k in s
    ensures Sorted(s)
    ensures Distinct(s)
    decreases |ks|
  {
    if ks == {} then []
    else
      var k := Least(ks);
      var rest := SortedKeys(ks - {k});
      var s := [k] + rest;
      forall j | 1 <= j < |s| ensures Less(k, s[j]) {
        assert s[j] == rest[j - 1] && rest[j - 1] in rest;
      }
      SortedDistinct(s);
      s
  }
}

=== FILE: params.dfy ===
/** The host framework's parameter tree (ofParameterGroup / ofParameter<T>) as an
    immutable value: each parameter is a named, typed value with a serializable
    flag; each group an ordered list of parameters and groups. */
module Params {

  /** The concrete parameter types that matter to the GUI layer. The first ten
      are the ones Gui::AddGroup tests for; the integer glm vectors have widget
      overloads that AddGroup never dispatches to; Other is any further type. */
  datatype Kind =
    | GlmVec2 | GlmVec3 | GlmVec4
    | OfVec2 | OfVec3 | OfVec4
    | FloatColor | Float | Int | Bool
    | IntVec2 | IntVec3 | IntVec4
    | Other(typeName: string)

  /** AddGroup builds a widget for this type. */
  predicate HasWidget(k: Kind)
  {
    !(k.IntVec2? || k.IntVec3? || k.IntVec4? || k.Other?)
  }

  /** A parameter tree over values of type V. Nil is a null entry in a group's list. */
  datatype Node<V> =
    | Nil
    | Leaf(name: string, serializable: bool, kind: Kind, value: V)
    | Group(name: string, serializable: bool, children: seq<Node<V>>)

  /** The tree with every value erased: names, flags, types and structure. */
  function Shape<V>(n: Node<V>): Node<()>
    decreases n
  {
    match n
    case Nil => Nil
    case Leaf(name, ser, kind, _) => Leaf(name, ser, kind, ())
    case Group(name, ser, cs) => Group(name, ser, ShapeSeq(cs))
  }

  function ShapeSeq<V>(cs: seq<Node<V>>): (r: seq<Node<()>>)
    ensures |r| == |cs|
    decreases cs
  {
    if |cs| == 0 then [] else [Shape(cs[0])] + ShapeSeq(cs[1..])
  }

  /** Two trees that differ at most in their values. */
  predicate SameShape<V>(a: Node<V>, b: Node<V>)
  {
    Shape(a) == Shape(b)
  }

  predicate SameShapes<V>(a: seq<Node<V>>, b: seq<Node<V>>)
  {
    ShapeSeq(a) == ShapeSeq(b)
  }

  lemma SameShapesCons<V>(a: seq<Node<V>>, b: seq<Node<V>>)
    requires |a| > 0 && |b| > 0
    ensures SameShapes(a, b) <==> SameShape(a[0], b[0]) && SameShapes(a[1..], b[1..])
  {
    if SameShapes(a, b) {
      assert ShapeSeq(a)[0] == ShapeSeq(b)[0];
      assert ShapeSeq(a)[1..] == ShapeSeq(b)[1..];
    }
  }

  /** No null entries anywhere in the tree. */
  predicate NoNil<V>(n: Node<V>)
    decreases n
  {
    match n
    case Nil => false
    case Leaf(_, _, _, _) => true
    case Group(_, _, cs) => NoNilSeq(cs)
  }

  predicate NoNilSeq<V>(cs: seq<Node<V>>)
    decreases cs
  {
    |cs| == 0 || (NoNil(cs[0]) && NoNilSeq(cs[1..]))
  }

  /** Every parameter and group in the tree is serializable. */
  predicate AllSerializable<V>(n: Node<V>)
    decreases n
  {
    match n
    case Nil => true
    case Leaf(_, ser, _, _) => ser
    case Group(_, ser, cs) => ser && AllSerializableSeq(cs)
  }

  predicate AllSerializableSeq<V>(cs: seq<Node<V>>)
    decreases cs
  {
    |cs| == 0 || (AllSerializable(cs[0]) && AllSerializableSeq(cs[1..]))
  }
}

=== FILE: roundtrip.dfy ===
/** The serialize-then-deserialize round trip for parameter trees. */
module RoundTrip {
  import opened Json
  import opened Params
  import opened Serializer
  import opened Ordering

  /** No two entries of any group write the same key into the same object
      (with empty-named groups flattened into their parent). */
  predicate WellKeyed<V>(n: Node<V>)
    decreases n
  {
    match n
    case Nil => true
    case Leaf(_, _, _, _) => true
    case Group(_, _, cs) => Distinct(KeysSeq(cs)) && WellKeyedSeq(cs)
  }

  predicate WellKeyedSeq<V>(cs: seq<Node<V>>)
    decreases cs
  {
    |cs| == 0 || (WellKeyed(cs[0]) && WellKeyedSeq(cs[1..]))
  }

  /** The entries a node adds to an object it is serialized into. */
  function Frag<V>(n: Node<V>, toStr: V -> string): map<string, Json>
    decreases n
  {
    match n
    case Nil => map[]
    case Leaf(name, ser, _, v) => if ser then map[name := Str(toStr(v))] else map[]
    case Group(name, ser, cs) =>
      if !ser then map[]
      else if name == "" then FragSeq(cs, toStr)
      else map[name := Merge(Null, FragSeq(cs, toStr))]
  }

  function FragSeq<V>(cs: seq<Node<V>>, toStr: V -> string): map<string, Json>
    decreases cs
  {
    if |cs| == 0 then map[] else Frag(cs[0], toStr) + FragSeq(cs[1..], toStr)
  }

  /** j with the entries f added; writing nothing leaves a null document null. */
  function Merge(j: Json, f: map<string, Json>): (r: Json)
    requires Writable(j)
    ensures Writable(r)
  {
    if f == map[] then j else Obj(Fields(j) + f)
  }

  function Fields(j: Json): map<string, Json>
  {
    if j.Obj? then j.fields else map[]
  }

  /** Every entry of f is stored in j. */
  predicate Contains(j: Json, f: map<string, Json>)
  {
    forall k :: k in f ==> Has(j, k) && At(j, k) == f[k]
  }

  lemma {:induction false} FragKeys<V>(n: Node<V>, toStr: V -> string)
    ensures forall k :: k in Frag(n, toStr) <==> k in Keys(n)
    decreases n
  {
    match n
    case Nil =>
    case Leaf(_, _, _, _) =>
    case Group(name, ser, cs) =>
      FragSeqKeys(cs, toStr);
  }

  lemma {:induction false} FragSeqKeys<V>(cs: seq<Node<V>>, toStr: V -> string)
    ensures forall k :: k in FragSeq(cs, toStr) <==> k in KeysSeq(cs)
    decreases cs
  {
    if |cs| > 0 {
      FragKeys(cs[0], toStr);
      FragSeqKeys(cs[1..], toStr);
    }
  }

  lemma MergeTwice(j: Json, a: map<string, Json>, b: map<string, Json>)
    requires Writable(j)
    ensures Merge(Merge(j, a), b) == Merge(j, a + b)
  {
    if a == map[] {
      assert a + b == b;
    } else if b == map[] {
      assert a + b == a;
    } else {
      assert a + b != map[] by {
        var k :| k in b;
        assert k in a + b;
      }
    }
  }

  lemma DistinctSplit(a: seq<string>, b: seq<string>)
    requires Distinct(a + b)
    ensures Distinct(a) && Distinct(b)
    ensures forall k :: k in a ==> k !in b
  {
    forall i, j | 0 <= i < j < |b| ensures b[i] != b[j] {
      assert (a + b)[|a| + i] == b[i] && (a + b)[|a| + j] == b[j];
    }
    forall i, j | 0 <= i < |a| && 0 <= j < |b| ensures a[i] != b[j] {
      assert (a + b)[i] == a[i] && (a + b)[|a| + j] == b[j];
    }
    forall i, j | 0 <= i < j < |a| ensures a[i] != a[j] {
      assert (a + b)[i] == a[i] && (a + b)[j] == a[j];
    }
  }

  /** Serializing a well-keyed tree into an object that lacks its keys adds
      exactly the tree's entries. */
  lemma {:induction false} SerializeWrites<V>(j: Json, n: Node<V>, toStr: V -> string)
    requires Writable(j) && WellKeyed(n)
    requires forall k :: k in Keys(n) ==> !Has(j, k)
    ensures SerializeNode(j, n, toStr) == Ok(Merge(j, Frag(n, toStr)))
    decreases n
  {
    match n
    case Nil =>
    case Leaf(name, ser, _, v) =>
      if ser {
        assert Fields(j)[name := Str(toStr(v))] == Fields(j) + map[name := Str(toStr(v))];
      }
    case Group(name, ser, cs) =>
      if ser && name == "" {
        SerializeChildrenWrites(j, cs, toStr);
      } else if ser {
        assert name in Keys(n);
        SerializeChildrenWrites(Null, cs, toStr);
        var sub := Merge(Null, FragSeq(cs, toStr));
        assert Fields(j)[name := sub] == Fields(j) + map[name := sub];
      }
  }

  lemma {:induction false} SerializeChildrenWrites<V>(j: Json, cs: seq<Node<V>>, toStr: V -> string)
    requires Writable(j) && WellKeyedSeq(cs) && Distinct(KeysSeq(cs))
    requires forall k :: k in KeysSeq(cs) ==> !Has(j, k)
    ensures SerializeChildren(j, cs, toStr) == Ok(Merge(j, FragSeq(cs, toStr)))
    decreases cs
  {
    if |cs| == 0 {
    } else {
      var first := Keys(cs[0]);
      var rest := KeysSeq(cs[1..]);
      DistinctSplit(first, rest);
      SerializeWrites(j, cs[0], toStr);
      var j1 := Merge(j, Frag(cs[0], toStr));
      FragKeys(cs[0], toStr);
      forall k | k in rest ensures !Has(j1, k) {
        assert k !in first && k !in Frag(cs[0], toStr);
        assert !Has(j, k);
      }
      SerializeChildrenWrites(j1, cs[1..], toStr);
      MergeTwice(j, Frag(cs[0], toStr), FragSeq(cs[1..], toStr));
    }
  }

  /** Deserializing from a document that holds a tree's entries restores the tree,
      whatever values the target tree held before. */
  lemma {:induction false} DeserializeRestores<V>(j: Json, n: Node<V>, stale: Node<V>,
                                                   toStr: V -> string, fromStr: string -> V)
    requires forall v :: fromStr(toStr(v)) == v
    requires forall v :: toStr(v) != ""
    requires AllSerializable(n) && WellKeyed(n) && SameShape(stale, n)
    requires Contains(j, Frag(n, toStr))
    ensures DeserializeNode(j, stale, fromStr) == Ok(n)
    decreases n
  {
    match n
    case Nil =>
    case Leaf(name, ser, kind, v) =>
      assert name in Frag(n, toStr);
    case Group(name, ser, cs) =>
      var cs' := stale.children;
      assert ShapeSeq(cs') == ShapeSeq(cs);
      if name == "" {
        DeserializeChildrenRestores(j, cs, cs', toStr, fromStr);
      } else {
        assert name in Frag(n, toStr);
        var sub := Merge(Null, FragSeq(cs, toStr));
        assert At(j, name) == sub;
        DeserializeChildrenRestores(sub, cs, cs', toStr, fromStr);
      }
  }

  lemma {:induction false} DeserializeChildrenRestores<V>(j: Json, cs: seq<Node<V>>, stale: seq<Node<V>>,
                                                           toStr: V -> string, fromStr: string -> V)
    requires forall v :: fromStr(toStr(v)) == v
    requires forall v :: toStr(v) != ""
    requires AllSerializableSeq(cs) && WellKeyedSeq(cs) && Distinct(KeysSeq(cs))
    requires SameShapes(stale, cs)
    requires Contains(j, FragSeq(cs, toStr))
    ensures DeserializeChildren(j, stale, fromStr) == Ok(cs)
    decreases cs
  {
    if |cs| > 0 {
      SameShapesCons(stale, cs);
      var first := Keys(cs[0]);
      var rest := KeysSeq(cs[1..]);
      DistinctSplit(first, rest);
      FragKeys(cs[0], toStr);
      FragSeqKeys(cs[1..], toStr);
      var f0 := Frag(cs[0], toStr);
      var fr := FragSeq(cs[1..], toStr);
      forall k | k in f0 ensures Has(j, k) && At(j, k) == f0[k] {
        assert k !in fr;
        assert (f0 + fr)[k] == f0[k];
      }
      DeserializeRestores(j, cs[0], stale[0], toStr, fromStr);
      DeserializeChildrenRestores(j, cs[1..], stale[1..], toStr, fromStr);
      assert [cs[0]] + cs[1..] == cs;
    }
  }

  /** Round trip: a fully serializable, well-keyed tree serialized into a document
      that lacks its keys (a fresh null document, say) is restored by deserializing
      that document into any tree of the same shape. */
  lemma RoundTrip<V>(j: Json, tree: Node<V>, stale: Node<V>, toStr: V -> string, fromStr: string -> V)
    requires forall v :: fromStr(toStr(v)) == v
    requires forall v :: toStr(v) != ""
    requires AllSerializable(tree) && WellKeyed(tree) && SameShape(stale, tree)
    requires Writable(j) && forall k :: k in Keys(tree) ==> !Has(j, k)
    ensures SerializeNode(j, tree, toStr).Ok?
    ensures DeserializeNode(SerializeNode(j, tree, toStr).value, stale, fromStr) == Ok(tree)
  {
    SerializeWrites(j, tree, toStr);
    var d := Merge(j, Frag(tree, toStr));
    assert Contains(d, Frag(tree, toStr));
    DeserializeRestores(d, tree, stale, toStr, fromStr);
  }
}

=== FILE: serializer.dfy ===
/** Serializer::Serialize / Serializer::Deserialize for parameters, parameter
    groups and vectors of values. The host's `toString` / `fromString` (and the
    stream operators the vector overloads use) are parameters, so nothing is
    assumed about them here. */
module Serializer {
  import opened Json
  import opened Params

  /** The keys a node writes into the object it is serialized into: the name of a
      serializable parameter or named group, and, for a serializable group with an
      empty name, its children's keys, since those go straight into the same object. */
  function Keys<V>(n: Node<V>): seq<string>
    decreases n
  {
    match n
    case Nil => []
    case Leaf(name, ser, _, _) => if ser then [name] else []
    case Group(name, ser, cs) =>
      if !ser then [] else if name == "" then KeysSeq(cs) else [name]
  }

  function KeysSeq<V>(cs: seq<Node<V>>): seq<string>
    decreases cs
  {
    if |cs| == 0 then [] else Keys(cs[0]) + KeysSeq(cs[1..])
  }

  // ---------------------------------------------------------------- serialize

  /** Serialize(json, ofAbstractParameter). */
  function SerializeParam<V>(j: Json, p: Node<V>, toStr: V -> string): (r: Result<Json>)
    requires p.Leaf?
    ensures !p.serializable ==> r == Ok(j)
    ensures p.serializable ==> (r.Ok? <==> Writable(j))
    ensures p.serializable && r.Ok? ==>
      Has(r.value, p.name) && At(r.value, p.name) == Str(toStr(p.value))
    ensures r.Ok? ==> forall k :: k != p.name ==> SameAt(j, r.value, k)
  {
    if p.serializable then Put(j, p.name, Str(toStr(p.value))) else Ok(j)
  }

  /** One entry of a group: sub-groups are recognised first, null entries are skipped. */
  function SerializeNode<V>(j: Json, n: Node<V>, toStr: V -> string): (r: Result<Json>)
    ensures r.Ok? ==> forall k :: k !in Keys(n) ==> SameAt(j, r.value, k)
    ensures r.Ok? ==> forall k :: k in Keys(n) ==> Has(r.value, k)
    ensures Keys(n) == [] ==> r == Ok(j)
    decreases n, 2
  {
    match n
    case Nil => Ok(j)
    case Leaf(_, _, _, _) => SerializeParam(j, n, toStr)
    case Group(_, _, _) => SerializeGroup(j, n, toStr)
  }

  /** Serialize(json, ofParameterGroup). */
  function SerializeGroup<V>(j: Json, g: Node<V>, toStr: V -> string): (r: Result<Json>)
    requires g.Group?
    ensures !g.serializable ==> r == Ok(j)
    ensures g.serializable && g.name != "" ==>
      (r.Ok? <==> Writable(j) && SerializeChildren(Child(j, g.name), g.children, toStr).Ok?)
    ensures g.serializable && g.name != "" && r.Ok? ==>
      Has(r.value, g.name) &&
      SerializeChildren(Child(j, g.name), g.children, toStr) == Ok(At(r.value, g.name))
    ensures r.Ok? ==> forall k :: k !in Keys(g) ==> SameAt(j, r.value, k)
    ensures r.Ok? ==> forall k :: k in Keys(g) ==> Has(r.value, k)
    ensures Keys(g) == [] ==> r == Ok(j)
    decreases g, 1
  {
    if !g.serializable then Ok(j)
    else if g.name == "" then SerializeChildren(j, g.children, toStr)
    else if !Writable(j) then TypeError
    else
      match SerializeChildren(Child(j, g.name), g.children, toStr)
      case TypeError => TypeError
      case Ok(sub) => Put(j, g.name, sub)
  }

  /** The loop over a group's entries, in order, each into the same object. */
  function SerializeChildren<V>(j: Json, cs: seq<Node<V>>, toStr: V -> string): (r: Result<Json>)
    ensures r.Ok? ==> forall k :: k !in KeysSeq(cs) ==> SameAt(j, r.value, k)
    ensures r.Ok? ==> forall k :: k in KeysSeq(cs) ==> Has(r.value, k)
    ensures KeysSeq(cs) == [] ==> r == Ok(j)
    decreases cs
  {
    if |cs| == 0 then Ok(j)
    else
      match SerializeNode(j, cs[0], toStr)
      case TypeError => TypeError
      case Ok(j1) => SerializeChildren(j1, cs[1..], toStr)
  }

  /** Serializing a + b is serializing a, then b into the result: entries are
      written strictly in list order, so a later entry overwrites an earlier one. */
  lemma {:induction false} SerializeChildrenAppend<V>(j: Json, a: seq<Node<V>>, b: seq<Node<V>>, toStr: V -> string)
    ensures SerializeChildren(j, a + b, toStr) ==
      match SerializeChildren(j, a, toStr)
      case TypeError => TypeError
      case Ok(j1) => SerializeChildren(j1, b, toStr)
    decreases |a|
  {
    if |a| > 0 {
      assert (a + b)[0] == a[0];
      assert (a + b)[1..] == a[1..] + b;
      match SerializeNode(j, a[0], toStr)
      case TypeError =>
      case Ok(j1) => SerializeChildrenAppend(j1, a[1..], b, toStr);
    } else {
      assert a + b == b;
    }
  }

  // -------------------------------------------------------------- deserialize

  /** Deserialize(json, ofAbstractParameter): a serializable parameter whose name is
      a key takes the stored string, unless that string is empty. */
  function DeserializeParam<V>(j: Json, p: Node<V>, fromStr: string -> V): (r: Result<Node<V>>)
    requires p.Leaf?
    ensures !p.serializable || !Has(j, p.name) ==> r == Ok(p)
    ensures p.serializable && Has(j, p.name) ==> (r.Ok? <==> At(j, p.name).Str?)
    ensures p.serializable && Has(j, p.name) && At(j, p.name) == Str("") ==> r == Ok(p)
    ensures p.serializable && Has(j, p.name) && At(j, p.name).Str? && At(j, p.name).s != "" ==>
      r == Ok(p.(value := fromStr(At(j, p.name).s)))
    ensures r.Ok? ==> SameShape(r.value, p)
  {
    if !p.serializable || !Has(j, p.name) then Ok(p)
    else
      match AsString(At(j, p.name))
      case TypeError => TypeError
      case Ok(s) => if s == "" then Ok(p) else Ok(p.(value := fromStr(s)))
  }

  function DeserializeNode<V>(j: Json, n: Node<V>, fromStr: string -> V): (r: Result<Node<V>>)
    ensures n.Nil? ==> r == Ok(Nil)
    ensures r.Ok? ==> SameShape(r.value, n)
    decreases n, 2
  {
    match n
    case Nil => Ok(Nil)
    case Leaf(_, _, _, _) => DeserializeParam(j, n, fromStr)
    case Group(_, _, _) => DeserializeGroup(j, n, fromStr)
  }

  /** Deserialize(json, ofParameterGroup). */
  function DeserializeGroup<V>(j: Json, g: Node<V>, fromStr: string -> V): (r: Result<Node<V>>)
    requires g.Group?
    ensures !g.serializable || (g.name != "" && !Has(j, g.name)) ==> r == Ok(g)
    ensures g.serializable && g.name == "" ==>
      r == (match DeserializeChildren(j, g.children, fromStr)
            case TypeError => TypeError
            case Ok(cs) => Ok(g.(children := cs)))
    ensures g.serializable && g.name != "" && Has(j, g.name) ==>
      r == (match DeserializeChildren(At(j, g.name), g.children, fromStr)
            case TypeError => TypeError
            case Ok(cs) => Ok(g.(children := cs)))
    ensures r.Ok? ==> SameShape(r.value, g)
    decreases g, 1
  {
    if !g.serializable then Ok(g)
    else if g.name != "" && !Has(j, g.name) then Ok(g)
    else
      var sub := if g.name == "" then j else At(j, g.name);
      match DeserializeChildren(sub, g.children, fromStr)
      case TypeError => TypeError
      case Ok(cs) =>
        assert ShapeSeq(cs) == ShapeSeq(g.children);
        Ok(g.(children := cs))
  }

  /** The loop over a group's entries: each entry is read from the same object,
      independently of the others, and keeps its position. */
  function DeserializeChildren<V>(j: Json, cs: seq<Node<V>>, fromStr: string -> V): (r: Result<seq<Node<V>>>)
    ensures r.Ok? <==> forall i :: 0 <= i < |cs| ==> DeserializeNode(j, cs[i], fromStr).Ok?
    ensures r.Ok? ==> |r.value| == |cs|
    ensures r.Ok? ==> forall i :: 0 <= i < |cs| ==> DeserializeNode(j, cs[i], fromStr) == Ok(r.value[i])
    ensures r.Ok? ==> SameShapes(r.value, cs)
    decreases cs
  {
    if |cs| == 0 then Ok([])
    else
      match DeserializeNode(j, cs[0], fromStr)
      case TypeError => TypeError
      case Ok(n) =>
        match DeserializeChildren(j, cs[1..], fromStr)
        case TypeError => TypeError
        case Ok(rest) =>
          SameShapesCons([n] + rest, cs);
          Ok([n] + rest)
  }

  /** Deserializing reads nothing but the node's own keys: two documents that agree
      on them give the same result. */
  lemma {:induction false} DeserializeReadsOnlyKeys<V>(j: Json, j': Json, n: Node<V>, fromStr: string -> V)
    requires forall k :: k in Keys(n) ==> SameAt(j, j', k)
    ensures DeserializeNode(j, n, fromStr) == DeserializeNode(j', n, fromStr)
    decreases n
  {
    match n
    case Nil =>
    case Leaf(name, ser, _, _) =>
      if ser {
        assert name in Keys(n);
      }
    case Group(name, ser, cs) =>
      if ser && name == "" {
        DeserializeChildrenReadsOnlyKeys(j, j', cs, fromStr);
      } else if ser {
        assert name in Keys(n);
      }
  }

  lemma {:induction false} DeserializeChildrenReadsOnlyKeys<V>(j: Json, j': Json, cs: seq<Node<V>>, fromStr: string -> V)
    requires forall k :: k in KeysSeq(cs) ==> SameAt(j, j', k)
    ensures DeserializeChildren(j, cs, fromStr) == DeserializeChildren(j', cs, fromStr)
    decreases cs
  {
    if |cs| > 0 {
      DeserializeReadsOnlyKeys(j, j', cs[0], fromStr);
      DeserializeChildrenReadsOnlyKeys(j, j', cs[1..], fromStr);
    }
  }

  // ------------------------------------------------------------------ vectors

  /** The object a vector overload works on: the document itself for an empty name. */
  function Target(j: Json, name: string): Json
  {
    if name == "" then j else Child(j, name)
  }

  /** The strings the vector Serialize pushes, one per value, in order. */
  function Strings<V>(values: seq<V>, toStr: V -> string): (ss: seq<string>)
    ensures |ss| == |values|
    ensures forall i :: 0 <= i < |values| ==> ss[i] == toStr(values[i])
  {
    seq(|values|, i requires 0 <= i < |values| => toStr(values[i]))
  }

  /** Serialize(json, vector<DataType>, name): appends, never replaces. */
  function SerializeValues<V>(j: Json, values: seq<V>, name: string, toStr: V -> string): (r: Result<Json>)
    ensures name != "" ==>
      (r.Ok? <==> Writable(j) && (|values| == 0 || Child(j, name).Null? || Child(j, name).Arr?))
    ensures name == "" ==> (r.Ok? <==> |values| == 0 || j.Null? || j.Arr?)
    ensures r.Ok? && |values| == 0 && name == "" ==> r.value == j
    ensures r.Ok? && name != "" ==> Has(r.value, name)
    ensures r.Ok? && |values| == 0 && name != "" ==> At(r.value, name) == Child(j, name)
    ensures r.Ok? && |values| > 0 ==>
      Target(r.value, name).Arr? &&
      Target(r.value, name).items == Items(Target(j, name)) +
        seq(|values|, i requires 0 <= i < |values| => Str(toStr(values[i])))
    ensures r.Ok? && name != "" ==> forall k :: k != name ==> SameAt(j, r.value, k)
  {
    var ss := Strings(values, toStr);
    if name == "" then PushAll(j, ss)
    else if !Writable(j) then TypeError
    else
      match PushAll(Child(j, name), ss)
      case TypeError => TypeError
      case Ok(sub) => Put(j, name, sub)
  }

  /** `iss >> val` for each element, after converting it to a string. */
  function ParseAll<V>(es: seq<Json>, fromStr: string -> V): (r: Result<seq<V>>)
    ensures r.Ok? <==> forall i :: 0 <= i < |es| ==> es[i].Str?
    ensures r.Ok? ==> |r.value| == |es|
    ensures r.Ok? ==> forall i :: 0 <= i < |es| ==> r.value[i] == fromStr(es[i].s)
    decreases |es|
  {
    if |es| == 0 then Ok([])
    else
      match AsString(es[0])
      case TypeError => TypeError
      case Ok(s) =>
        match ParseAll(es[1..], fromStr)
        case TypeError => TypeError
        case Ok(rest) => Ok([fromStr(s)] + rest)
  }

  /** Deserialize(json, vector<DataType>, name): a missing named key leaves the
      values alone; otherwise the values are replaced by one per stored element. */
  function DeserializeValues<V>(j: Json, values: seq<V>, name: string, fromStr: string -> V): (r: Result<seq<V>>)
    ensures name != "" && !Has(j, name) ==> r == Ok(values)
    ensures name == "" || Has(j, name) ==>
      var es := Elements(Target(j, name));
      (r.Ok? <==> forall i :: 0 <= i < |es| ==> es[i].Str?) &&
      (r.Ok? ==> |r.value| == |es| && forall i :: 0 <= i < |es| ==> r.value[i] == fromStr(es[i].s))
  {
    if name != "" && !Has(j, name) then Ok(values)
    else ParseAll(Elements(Target(j, name)), fromStr)
  }

  /** Vector round trip: values serialized into a fresh place come back unchanged,
      whatever the vector held before. */
  lemma ValuesRoundTrip<V>(j: Json, values: seq<V>, stale: seq<V>, name: string,
                           toStr: V -> string, fromStr: string -> V)
    requires forall v :: fromStr(toStr(v)) == v
    requires name == "" ==> j.Null?
    requires name != "" ==> Writable(j) && !Has(j, name)
    ensures SerializeValues(j, values, name, toStr).Ok?
    ensures DeserializeValues(SerializeValues(j, values, name, toStr).value, stale, name, fromStr) == Ok(values)
  {
    var d := SerializeValues(j, values, name, toStr).value;
    var es := Elements(Target(d, name));
    if |values| > 0 {
      assert Target(d, name).Arr?;
      assert es == seq(|values|, i requires 0 <= i < |values| => Str(toStr(values[i])));
    } else {
      assert Target(d, name).Null?;
      assert es == [];
    }
    var r := DeserializeValues(d, stale, name, fromStr);
    assert r.Ok? && |r.value| == |values|;
    assert forall i :: 0 <= i < |values| ==> r.value[i] == values[i];
    assert r.value == values;
  }

  /** Serializing the same values twice under one name stores them twice. */
  lemma SerializeValuesTwiceAppends<V>(j: Json, values: seq<V>, name: string, toStr: V -> string)
    requires |values| > 0
    requires name == "" ==> j.Null?
    requires name != "" ==> Writable(j) && !Has(j, name)
    ensures SerializeValues(j, values, name, toStr).Ok?
    ensures var once := SerializeValues(j, values, name, toStr).value;
      var twice := SerializeValues(once, values, name, toStr);
      twice.Ok? && Target(twice.value, name).items == Target(once, name).items + Target(once, name).items
  {
  }
}

=== FILE: traversal.dfy ===
/** Gui::AddGroup: one pass of the GUI over a parameter tree. A group opens a
    window when none is open and a tree node otherwise. A collapsed window is
    ended at once and a collapsed node only costs its label; in both cases the
    group's entries are not visited. Otherwise every entry is visited in order,
    sub-groups first, then the parameter types the GUI has a widget for, and
    anything else is skipped. */
module Traversal {
  import opened Params
  import opened Gui

  /** The toolkit's answers during one pass. */
  datatype Toolkit<!V> = Toolkit(
    window: string -> WindowAnswer,           // ImGui::Begin for a group's own window, by group name
    geometry: string -> Geometry,             // what EndWindow reads back for that window
    nodeOpen: (string, bool) -> bool,         // tree node (or collapsing header) by label
    widget: (string, Kind, V) -> Option<V>)   // the value entered this frame, if the user changed it

  /** The names of the parameters that get a widget, in tree order. */
  function Widgets<V>(n: Node<V>): seq<string>
    decreases n
  {
    match n
    case Nil => []
    case Leaf(name, _, kind, _) => if HasWidget(kind) then [name] else []
    case Group(_, _, cs) => WidgetsSeq(cs)
  }

  function WidgetsSeq<V>(cs: seq<Node<V>>): seq<string>
    decreases cs
  {
    if |cs| == 0 then [] else Widgets(cs[0]) + WidgetsSeq(cs[1..])
  }

  /** a can be obtained from b by deleting elements: same order, nothing new. */
  predicate IsSubseq(a: seq<string>, b: seq<string>)
    decreases |b|
  {
    |a| == 0 ||
    (|b| > 0 && ((a[0] == b[0] && IsSubseq(a[1..], b[1..])) || IsSubseq(a, b[1..])))
  }

  lemma {:induction false} SubseqConcat(a1: seq<string>, b1: seq<string>, a2: seq<string>, b2: seq<string>)
    requires IsSubseq(a1, b1) && IsSubseq(a2, b2)
    ensures IsSubseq(a1 + a2, b1 + b2)
    decreases |b1|
  {
    if |b1| == 0 {
      assert a1 + a2 == a2 && b1 + b2 == b2;
    } else if |a1| == 0 {
      if |a2| > 0 {
        SubseqConcat(a1, b1[1..], a2, b2);
        assert (b1 + b2)[1..] == b1[1..] + b2;
        assert a1 + a2 == a2;
      }
    } else if a1[0] == b1[0] && IsSubseq(a1[1..], b1[1..]) {
      SubseqConcat(a1[1..], b1[1..], a2, b2);
      assert (a1 + a2)[1..] == a1[1..] + a2;
      assert (b1 + b2)[1..] == b1[1..] + b2;
    } else {
      SubseqConcat(a1, b1[1..], a2, b2);
      assert (b1 + b2)[1..] == b1[1..] + b2;
    }
  }

  lemma {:induction false} SubseqRefl(a: seq<string>)
    ensures IsSubseq(a, a)
    decreases |a|
  {
    if |a| > 0 {
      SubseqRefl(a[1..]);
    }
  }

  datatype Edited<V> = Edited(state: State, node: Node<V>, changed: bool)

  /** Gui::AddParameter for a type with a widget: one label request in the current
      scope; the value is replaced only when the toolkit reports a change. */
  function AddParameter<V>(st: State, p: Node<V>, tk: Toolkit<V>): (r: Edited<V>)
    requires p.Leaf? && HasWidget(p.kind) && |st.names| > 0
    ensures r.state == GetUniqueName(st, p.name).state
    ensures var edit := tk.widget(GetUniqueName(st, p.name).name, p.kind, p.value);
      (r.changed <==> edit.Some?) &&
      (r.changed ==> r.node == p.(value := edit.value)) &&
      (!r.changed ==> r.node == p)
    ensures SameShape(r.node, p)
  {
    var n := GetUniqueName(st, p.name);
    match tk.widget(n.name, p.kind, p.value)
    case Some(v) => Edited(n.state, p.(value := v), true)
    case None => Edited(n.state, p, false)
  }

  /** a is b after a pass: same tree, and each parameter holds either its old
      value or a value its widget reported as entered for that old value. */
  ghost predicate EditedFrom<V>(a: Node<V>, b: Node<V>, tk: Toolkit<V>)
    decreases b
  {
    match b
    case Nil => a == Nil
    case Leaf(_, _, kind, v) =>
      a == b || (a.Leaf? && a == b.(value := a.value) && exists l :: tk.widget(l, kind, v) == Some(a.value))
    case Group(name, ser, cs) =>
      a.Group? && a.name == name && a.serializable == ser && EditedFromSeq(a.children, cs, tk)
  }

  ghost predicate EditedFromSeq<V>(after: seq<Node<V>>, before: seq<Node<V>>, tk: Toolkit<V>)
    decreases before
  {
    |after| == |before| &&
    (|before| == 0 || (EditedFrom(after[0], before[0], tk) && EditedFromSeq(after[1..], before[1..], tk)))
  }

  lemma {:induction false} EditedFromRefl<V>(n: Node<V>, tk: Toolkit<V>)
    ensures EditedFrom(n, n, tk)
    decreases n
  {
    if n.Group? {
      EditedFromSeqRefl(n.children, tk);
    }
  }

  lemma {:induction false} EditedFromSeqRefl<V>(cs: seq<Node<V>>, tk: Toolkit<V>)
    ensures EditedFromSeq(cs, cs, tk)
    decreases cs
  {
    if |cs| > 0 {
      EditedFromRefl(cs[0], tk);
      EditedFromSeqRefl(cs[1..], tk);
    }
  }

  /** A group whose entries were passed over keeps its shape and its edits. */
  lemma GroupEdited<V>(g: Node<V>, nodes: seq<Node<V>>, tk: Toolkit<V>)
    requires g.Group? && SameShapes(nodes, g.children) && EditedFromSeq(nodes, g.children, tk)
    ensures SameShape(g.(children := nodes), g) && EditedFrom(g.(children := nodes), g, tk)
  {
  }

  datatype Pass<V> = Pass(state: State, node: Node<V>, visited: seq<string>)
  datatype PassSeq<V> = PassSeq(state: State, nodes: seq<Node<V>>, visited: seq<string>)

  /** Only labels were added to the innermost scope; nothing else changed. */
  predicate Grew(before: State, after: State)
  {
    SameBelowTop(before, after) &&
    Top(before) <= Top(after) &&
    after.settings == before.settings
  }

  /** The end of AddGroup: close the window if this call opened it, otherwise the tree node. */
  function CloseGroup(st: State, prevWindowBlock: bool, geo: Geometry): State
    requires |st.names| > 0
  {
    if st.settings.windowBlock && !prevWindowBlock then EndWindow(st, geo) else EndTree(st)
  }

  /** Gui::AddGroup. Null entries are outside this model: the source dereferences
      them when reporting an unsupported entry. */
  function AddGroup<V>(st: State, g: Node<V>, tk: Toolkit<V>): (r: Pass<V>)
    requires g.Group? && NoNil(g) && Wf(st)
    ensures Wf(r.state)
    ensures |r.state.names| == |st.names|
    ensures r.state.settings.windowBlock == st.settings.windowBlock
    ensures r.state.settings.treeLevel == st.settings.treeLevel
    ensures st.settings.mouseOverGui ==> r.state.settings.mouseOverGui
    ensures st.settings.windowBlock ==>
      r.state.names == GetUniqueName(st, g.name).state.names && r.state.settings == st.settings
    ensures !st.settings.windowBlock ==> r.state.names == st.names
    ensures SameShape(r.node, g)
    ensures EditedFrom(r.node, g, tk)
    ensures IsSubseq(r.visited, Widgets(g))
    decreases g, 2
  {
    if st.settings.windowBlock then AddNestedGroup(st, g, tk) else AddWindowGroup(st, g, tk)
  }

  /** AddGroup inside an open window: the group is a tree node, labelled in the
      enclosing scope, and the entries are visited only if the node is open. */
  function AddNestedGroup<V>(st: State, g: Node<V>, tk: Toolkit<V>): (r: Pass<V>)
    requires g.Group? && NoNil(g) && Wf(st) && st.settings.windowBlock
    ensures Wf(r.state)
    ensures r.state.names == GetUniqueName(st, g.name).state.names && r.state.settings == st.settings
    ensures SameShape(r.node, g)
    ensures EditedFrom(r.node, g, tk)
    ensures IsSubseq(r.visited, Widgets(g))
    decreases g, 1
  {
    var t := BeginTree(st, g.name, tk.nodeOpen);
    if !t.open then EditedFromRefl(g, tk); Pass(t.state, g, [])
    else
      var body := AddEntries(t.state, g.children, tk);
      assert body.state.names[..|st.names|] == t.state.names[..|st.names|];
      GroupEdited(g, body.nodes, tk);
      Pass(CloseGroup(body.state, true, tk.geometry(g.name)), g.(children := body.nodes), body.visited)
  }

  /** AddGroup outside any window: the group gets a window of its own, which is
      ended at once when it is collapsed. */
  function AddWindowGroup<V>(st: State, g: Node<V>, tk: Toolkit<V>): (r: Pass<V>)
    requires g.Group? && NoNil(g) && Wf(st) && !st.settings.windowBlock
    ensures Wf(r.state)
    ensures r.state.names == st.names
    ensures !r.state.settings.windowBlock
    ensures r.state.settings.treeLevel == st.settings.treeLevel
    ensures st.settings.mouseOverGui ==> r.state.settings.mouseOverGui
    ensures SameShape(r.node, g)
    ensures EditedFrom(r.node, g, tk)
    ensures IsSubseq(r.visited, Widgets(g))
    decreases g, 1
  {
    var w := BeginWindow(st, None, tk.window(g.name));
    if !w.visible then EditedFromRefl(g, tk); Pass(EndWindow(w.state, tk.geometry(g.name)), g, [])
    else
      var body := AddEntries(w.state, g.children, tk);
      assert body.state.names[..|st.names|] == w.state.names[..|st.names|];
      GroupEdited(g, body.nodes, tk);
      Pass(CloseGroup(body.state, false, tk.geometry(g.name)), g.(children := body.nodes), body.visited)
  }

  /** One entry of a group, inside an open window: sub-groups are recognised first,
      then the parameter types with a widget; anything else is skipped. */
  function AddEntry<V>(st: State, n: Node<V>, tk: Toolkit<V>): (r: Pass<V>)
    requires NoNil(n) && Wf(st) && st.settings.windowBlock
    ensures Wf(r.state) && Grew(st, r.state)
    ensures n.Leaf? && HasWidget(n.kind) ==>
      r.visited == [n.name] && r.state == GetUniqueName(st, n.name).state
    ensures n.Leaf? && !HasWidget(n.kind) ==> r == Pass(st, n, [])
    ensures SameShape(r.node, n)
    ensures EditedFrom(r.node, n, tk)
    ensures IsSubseq(r.visited, Widgets(n))
    decreases n, 3
  {
    match n
    case Group(_, _, _) => AddGroup(st, n, tk)
    case Leaf(name, _, kind, _) =>
      if HasWidget(kind) then
        var e := AddParameter(st, n, tk);
        SubseqRefl([name]);
        Pass(e.state, e.node, [name])
      else EditedFromRefl(n, tk); Pass(st, n, [])
  }

  /** The loop of AddGroup over its entries, in order. */
  function AddEntries<V>(st: State, cs: seq<Node<V>>, tk: Toolkit<V>): (r: PassSeq<V>)
    requires NoNilSeq(cs) && Wf(st) && st.settings.windowBlock
    ensures Wf(r.state) && Grew(st, r.state)
    ensures SameShapes(r.nodes, cs)
    ensures EditedFromSeq(r.nodes, cs, tk)
    ensures IsSubseq(r.visited, WidgetsSeq(cs))
    decreases cs
  {
    if |cs| == 0 then PassSeq(st, [], [])
    else
      var first := AddEntry(st, cs[0], tk);
      var rest := AddEntries(first.state, cs[1..], tk);
      SubseqConcat(first.visited, Widgets(cs[0]), rest.visited, WidgetsSeq(cs[1..]));
      SameShapesCons([first.node] + rest.nodes, cs);
      PassSeq(rest.state, [first.node] + rest.nodes, first.visited + rest.visited)
  }

  /** With every window and node expanded, a pass visits exactly the parameters
      that have a widget, in tree order. */
  lemma {:induction false} AllOpenVisitsAll<V>(st: State, g: Node<V>, tk: Toolkit<V>)
    requires g.Group? && NoNil(g) && Wf(st)
    requires forall name :: tk.window(name).visible
    requires forall name, header :: tk.nodeOpen(name, header)
    ensures AddGroup(st, g, tk).visited == Widgets(g)
    decreases g, 2
  {
    if st.settings.windowBlock {
      var t := BeginTree(st, g.name, tk.nodeOpen);
      AllOpenVisitsAllEntries(t.state, g.children, tk);
    } else {
      var w := BeginWindow(st, None, tk.window(g.name));
      AllOpenVisitsAllEntries(w.state, g.children, tk);
    }
  }

  lemma {:induction false} AllOpenVisitsAllEntries<V>(st: State, cs: seq<Node<V>>, tk: Toolkit<V>)
    requires NoNilSeq(cs) && Wf(st) && st.settings.windowBlock
    requires forall name :: tk.window(name).visible
    requires forall name, header :: tk.nodeOpen(name, header)
    ensures AddEntries(st, cs, tk).visited == WidgetsSeq(cs)
    decreases cs
  {
    if |cs| > 0 {
      var first := AddEntry(st, cs[0], tk);
      if cs[0].Group? {
        AllOpenVisitsAll(st, cs[0], tk);
      }
      AllOpenVisitsAllEntries(first.state, cs[1..], tk);
    }
  }

  /** Values change only through widget edits: when no widget reports an edit,
      a pass hands the tree back exactly as it was. */
  lemma {:induction false} NoEditsKeepValues<V>(st: State, g: Node<V>, tk: Toolkit<V>)
    requires g.Group? && NoNil(g) && Wf(st)
    requires forall l, k, v :: tk.widget(l, k, v).None?
    ensures AddGroup(st, g, tk).node == g
    decreases g, 2
  {
    if st.settings.windowBlock {
      var t := BeginTree(st, g.name, tk.nodeOpen);
      if t.open {
        NoEditsKeepEntries(t.state, g.children, tk);
      }
    } else {
      var w := BeginWindow(st, None, tk.window(g.name));
      if w.visible {
        NoEditsKeepEntries(w.state, g.children, tk);
      }
    }
  }

  lemma {:induction false} NoEditsKeepEntry<V>(st: State, n: Node<V>, tk: Toolkit<V>)
    requires NoNil(n) && Wf(st) && st.settings.windowBlock
    requires forall l, k, v :: tk.widget(l, k, v).None?
    ensures AddEntry(st, n, tk).node == n
    decreases n, 3
  {
    if n.Group? {
      NoEditsKeepValues(st, n, tk);
    } else if HasWidget(n.kind) {
      assert tk.widget(GetUniqueName(st, n.name).name, n.kind, n.value).None?;
    }
  }

  lemma {:induction false} NoEditsKeepEntries<V>(st: State, cs: seq<Node<V>>, tk: Toolkit<V>)
    requires NoNilSeq(cs) && Wf(st) && st.settings.windowBlock
    requires forall l, k, v :: tk.widget(l, k, v).None?
    ensures AddEntries(st, cs, tk).nodes == cs
    decreases cs
  {
    if |cs| > 0 {
      var first := AddEntry(st, cs[0], tk);
      NoEditsKeepEntry(st, cs[0], tk);
      var rest := AddEntries(first.state, cs[1..], tk);
      NoEditsKeepEntries(first.state, cs[1..], tk);
      assert AddEntries(st, cs, tk).nodes == [first.node] + rest.nodes;
      assert [cs[0]] + cs[1..] == cs;
    }
  }

  /** A tree node the user has collapsed costs one label in the enclosing scope,
      and none of its entries is visited or changed. */
  lemma CollapsedNodeSkipsEntries<V>(st: State, g: Node<V>, tk: Toolkit<V>)
    requires g.Group? && NoNil(g) && Wf(st) && st.settings.windowBlock
    requires !tk.nodeOpen(GetUniqueName(st, g.name).name, st.settings.treeLevel == 0)
    ensures AddGroup(st, g, tk) == Pass(GetUniqueName(st, g.name).state, g, [])
  {
  }

  /** A collapsed window is ended at once: the label stack is back as it was and
      none of the group's entries is visited or changed. */
  lemma CollapsedWindowSkipsEntries<V>(st: State, g: Node<V>, tk: Toolkit<V>)
    requires g.Group? && NoNil(g) && Wf(st) && !st.settings.windowBlock
    requires !tk.window(g.name).visible
    ensures AddGroup(st, g, tk).visited == [] && AddGroup(st, g, tk).node == g
    ensures AddGroup(st, g, tk).state.names == st.names
  {
  }

  /** An entry of a type without a widget is passed over and the entries after it
      are handled exactly as if it were not there. */
  lemma UnsupportedSkipped<V>(st: State, p: Node<V>, cs: seq<Node<V>>, tk: Toolkit<V>)
    requires p.Leaf? && !HasWidget(p.kind)
    requires NoNilSeq(cs) && Wf(st) && st.settings.windowBlock
    ensures NoNilSeq([p] + cs)
    ensures var with := AddEntries(st, [p] + cs, tk);
      var without := AddEntries(st, cs, tk);
      with.state == without.state && with.visited == without.visited &&
      with.nodes == [p] + without.nodes
  {
    assert ([p] + cs)[1..] == cs;
  }

  /** A whole pass from the default settings ends with no window open, tree
      level 0, and the label stack as it was. */
  lemma PassFromDefaults<V>(names: seq<seq<string>>, g: Node<V>, tk: Toolkit<V>)
    requires g.Group? && NoNil(g)
    ensures var r := AddGroup(State(names, DefaultSettings), g, tk);
      r.state.names == names && !r.state.settings.windowBlock && r.state.settings.treeLevel == 0
  {
  }
}
